=== FILE: README.md ===
# concurrent_unordered_map — sequential model in Dafny

A Dafny model of the sequential behaviour of `boost::spinlock::concurrent_unordered_map`
and of the `spinlock<bool>` test, both in `unittests.cpp`. Locks are treated as absent. In a
single-threaded run every lock acquisition succeeds at once, and every slot lock is released
before an operation returns.

- `Spinlocks` (spinlock.dfy): the lock bit as a two-state machine (`try_lock`, `lock`, `unlock`).
- `Items` (items.dfy): an item slot is a cached hash plus an optional owned `(key, value)` entry.
  It provides `item_type::set` and `item_type::detach`.
- `Buckets` (buckets.dfy): a bucket is a `seq` of slots, and its length is the bucket's
  `count`. An unallocated array is the empty sequence. It provides the hash-filtered `find`
  (which can also record an empty slot), the claim loop and growth of `insert`, `resize`,
  `remove` and `clear`. It also gives occupancy (`Occupied`) and contents (`Has`, `UniqueKeys`)
  with their lemmas.
- `MapIterator` (map_iterator.dfy): the iterator is a (bucket, offset) pair. It provides
  `begin()`, `end()` and `operator++`, and proves the whole iteration order.
- `ConcurrentMap` (concurrent_map.dfy): the map is a non-empty sequence of buckets, a size
  counter and a hasher. A key goes to bucket `hash % n`. It provides the constructors,
  `find`, `insert`, `erase`, `clear`, `reserve`, `size` and `empty`. `Valid` is the map
  invariant. It states four things:
  - there is at least one bucket;
  - `size` equals the number of occupied slots;
  - every entry sits in its routed bucket with its key's hash cached;
  - keys are distinct within a bucket.

  The constructors establish `Valid`, and `Insert`, `Erase`, `Clear` and `Reserve` preserve
  it. `Insert` and `Erase` take it as a precondition.
- `AsWritten` (as_written.dfy): places where the source, read literally, does something other
  than what it evidently intends. Each comes with a lemma that exhibits the difference (see
  Findings).

The source does not compile as written. Where it cannot be taken literally it is read as
evidently intended:
- `size_t *empty==nullptr` (:161) as the default argument `= nullptr`, so that bucket `find` records an empty slot only when asked;
- `offset=i->items` (:207) as the claimed slot's index;
- the undefined `k` and `hash` in `insert` (:355, :378) as the key of the inserted pair and its hash `h`;
- the undeclared `to_offset` (:345, :369) as the slot's index in its bucket;
- `allocator` and `ret._itb->_offset` in `erase` (:386) as the map's allocator and the iterator's own offset;
- the undeclared `i->destroy` in bucket `clear` (:131) as detaching and destroying the slot's value.

Key equality is Dafny's `==` (the default `std::equal_to`). The hasher is a total function
`K -> nat` stored in the map.

Bucket growth follows the code's `count + count/2`, which rounds down rather than up. The
model adds at least one slot so that an unallocated bucket can grow at all. The hint that
`insert` passes from its duplicate scan to the claim loop is modelled literally, including
the way `emptyidx == 0` means both "nothing recorded" and "slot 0". Run sequentially, this
never makes the claim miss an empty slot, but the slot claimed is not always the first empty
one. With slots `[empty, key 1 with hash 5, empty]` and key 2 hashing to 5, the scan records
slot 0 as the hint, which then reads as "nothing recorded", so slot 2 is recorded too. The
claim starts at slot 2 and the entry goes there while slot 0 stays empty.

## Model

| member | source | states |
|---|---|---|
| Spinlocks.TryLock | unittests.cpp:406-410 | try_lock succeeds exactly on an unlocked lock and locks it; a failed try_lock changes nothing |
| Spinlocks.Lock | unittests.cpp:413-414 | after the scoped guard takes the lock, try_lock fails |
| Spinlocks.Unlock | unittests.cpp:411 | after unlock, try_lock succeeds again |
| Spinlocks.MutualExclusion | unittests.cpp:409-410 | two try_locks in a row never both succeed |
| Spinlocks.SequentialTestCase | unittests.cpp:406-415 | the sequential test's three REQUIREs hold, and the refused try_lock leaves the lock held |
| Items.Set | unittests.cpp:87-92 | set links the entry into the slot and caches its hash beside it; the round trip with detach is stated by Items.DetachAfterSet |
| Items.Detach | unittests.cpp:93-100 | detach returns the previous pointer and leaves the slot empty; hash reset to 0 only if it was occupied, an empty slot is unchanged |
| Items.DetachAfterSet | unittests.cpp:87-100 | detaching what set stored gives back that entry and a zero slot |
| Items.DetachTwice | unittests.cpp:93-100 | a second detach yields null and changes nothing (the value is handed out once) |
| Buckets.Find | unittests.cpp:161-191 | returns the first slot at or after start whose cached hash equals h and which is occupied, none if there is none (including an unallocated bucket); the recorded empty slot is the first empty slot the hash filter passed before the hit |
| Buckets.FirstEmpty | unittests.cpp:202-210 | the claim target is the first empty slot at or after the hint; every slot between hint and it is occupied |
| Buckets.ClaimEmpty | unittests.cpp:200-211 | the claim loop finds exactly that first empty slot, or none |
| Buckets.Grow | unittests.cpp:212-214 | a full bucket grows by count/2 slots, and by exactly one when count/2 is 0 |
| Buckets.Resize | unittests.cpp:253-267 | capacity becomes newsize, slots below both capacities are unchanged, added slots are zero-filled |
| Buckets.ResizeKeepsContents | unittests.cpp:260-266 | growing keeps the occupied count, the entries and the keys |
| Buckets.Insert | unittests.cpp:192-237 | stores the entry in the first empty slot at or after the hint; grows only when there is none, then uses the first new slot; nothing else changes; occupancy +1; entries are the old ones plus the new one; keys stay unique when the key was absent |
| Buckets.ClaimAddsEntry | unittests.cpp:224-227 | setting an empty slot adds exactly that entry and one to the count |
| Buckets.Remove | unittests.cpp:238-252 | the slot's previous entry is returned; an occupied slot becomes null with hash 0, an empty slot is left as it was; other slots untouched, capacity unchanged |
| Buckets.RemoveDropsEntry | unittests.cpp:238-252 | removing drops exactly the slot's entry, and one from the count if it was occupied |
| Buckets.Clear | unittests.cpp:118-137 | after clear the array is freed (count 0) and the bucket holds no entry |
| Buckets.OccupiedZeroIffAllEmpty | unittests.cpp:125-136 | a bucket's occupancy is zero exactly when every slot is empty |
| MapIterator.Begin | unittests.cpp:319-322 | begin() is offset 0 of the first bucket; the positions reached from it are listed by MapIterator.IterationOrder |
| MapIterator.End | unittests.cpp:324-327 | end() is offset 0 one past the last bucket; MapIterator.Next leaves it fixed and MapIterator.IterationOrder ends there |
| MapIterator.Next | unittests.cpp:291-303 | operator++ leaves end() unchanged, otherwise moves strictly forward in (bucket, offset) order to the very next position (no position lies in between), which is the next offset, offset 0 of the next bucket, or end() |
| MapIterator.PositionsSortedAndComplete | unittests.cpp:291-303 | the listed positions are sorted in (bucket, offset) order and are exactly the positions of the buckets |
| MapIterator.IterationOrder | unittests.cpp:287-303 | from begin(), the n-th operator++ reaches the n-th position in bucket-major slot-minor order, and after all positions the iterator is end() |
| ConcurrentMap.Route | unittests.cpp:270-279 | the routed bucket index is below the bucket count |
| ConcurrentMap.New | unittests.cpp:310 | the default constructor; its bucket count (13), empty buckets, size 0 and invariant are stated by ConcurrentMap.ConstructorsValid |
| ConcurrentMap.WithBucketCount | unittests.cpp:311 | the sized constructor; its bucket count (n, or 1 when n is 0), empty buckets, size 0 and invariant are stated by ConcurrentMap.ConstructorsValid |
| ConcurrentMap.ConstructorsValid | unittests.cpp:310-311 | a default map has 13 unallocated buckets, a sized map n (1 when n is 0); both start at size 0, establish the map invariant and hold no key |
| ConcurrentMap.ScanKey | unittests.cpp:361-373 | the scan returns a slot at or after start holding the key with the hash, or proves no such slot exists; the recorded hint is unchanged or an empty slot |
| ConcurrentMap.Find | unittests.cpp:329-350 | end() on an empty map; otherwise end() or a slot of bucket hash % n holding the key |
| ConcurrentMap.FindComplete | unittests.cpp:329-350 | find is end() exactly when the key is absent; otherwise the slot's pair is in the map |
| ConcurrentMap.ContainsIffRouted | unittests.cpp:270-274 | a key can only be present in its routed bucket |
| ConcurrentMap.Insert | unittests.cpp:352-382 | an existing key: position of its slot, false, nothing changed; otherwise the pair stored in a slot of the routed bucket that was empty, true, size +1; the bucket grows, to Grow(count) slots with the added ones zero-filled, only when it had no empty slot; no other slot of any bucket changes; contents are the old pairs plus the new one; the invariant is kept |
| ConcurrentMap.Erase | unittests.cpp:383-389 | the slot is emptied as detach does: hash reset to 0 when it held a value, an empty slot left as it was; every other slot stays where it was; size drops by one exactly when it held a value; capacities are unchanged; the next position is returned; the invariant is kept |
| ConcurrentMap.EraseContents | unittests.cpp:383-389 | erase removes exactly the pair the slot held and nothing else |
| ConcurrentMap.Clear | unittests.cpp:390-395 | every bucket emptied and freed, size 0, bucket count kept, invariant holds |
| ConcurrentMap.ClearEmpties | unittests.cpp:390-395 | after clear, empty() holds, size() is 0 and find returns end() for every key |
| ConcurrentMap.Size | unittests.cpp:318 | size() reads the counter, which the invariant Valid ties to the number of occupied slots |
| ConcurrentMap.IsEmpty | unittests.cpp:317 | empty() is size() == 0; ConcurrentMap.IsEmptyIffNoKeys relates it to the contents |
| ConcurrentMap.IsEmptyIffNoKeys | unittests.cpp:317 | empty() holds exactly when no key is present |
| ConcurrentMap.Reserve | unittests.cpp:396-400 | fails with RehashUnsupported, map unchanged, exactly when non-empty; otherwise n buckets (at least one), leading buckets kept, new ones unallocated, invariant kept |
| ConcurrentMap.ReserveOutcome | unittests.cpp:396-400 | a failed reserve keeps every key; a successful one happens only on, and leaves, an empty map |
| ConcurrentMap.TotalUpdate | unittests.cpp:379 | replacing one bucket changes the map's occupancy by that bucket's change |
| AsWritten.InsertRound | unittests.cpp:195-216 | one pass of the literal do-while: claim the first empty slot from the hint, then resize to count + count/2 whether or not a slot was claimed |
| AsWritten.InsertRoundStuck | unittests.cpp:212-216 | as written, a full bucket of capacity 0 or 1 is a fixed point of the insert loop |
| AsWritten.InsertRoundGrowsAfterClaim | unittests.cpp:212-216 | as written, a round that claimed a slot still reallocates the bucket |
| AsWritten.SkipMismatch | unittests.cpp:169-176 | the inner loop stops at the first slot from i whose cached hash is h, or at the end, passing only slots whose hash differs (recording an empty slot is left to Buckets.Find) |
| AsWritten.FindStep | unittests.cpp:167-188 | one trip round the literal outer loop: end of bucket, an occupied hash match, or a failed re-validation that goes round again at the same slot |
| AsWritten.FindStepSpins | unittests.cpp:167-188 | as written, an empty slot whose hash matches is revisited forever |
| AsWritten.FindStepZeroHash | unittests.cpp:167-188 | the scan stays at a zero-filled slot for hash 0, while Buckets.Find returns the entry behind it |
| AsWritten.RestartStep | unittests.cpp:337-339 | the literal map-level loop hands the slot that just matched back to bucket find as its start |
| AsWritten.RestartStepRepeats | unittests.cpp:337-340 | as written, restarting bucket find at a hash match returns the same slot |
| AsWritten.RestartStepCollision | unittests.cpp:361-364 | two keys sharing a hash: the loop as written gets slot 0 again, ScanKey finds slot 1 |
| AsWritten.Erase | unittests.cpp:383-389 | the literal erase: removes the slot's value and steps the iterator, leaving _size as it was |
| AsWritten.EraseLosesCount | unittests.cpp:383-389 | as written, erasing an occupied slot leaves size one above the occupancy, breaking the invariant that ConcurrentMap.Erase keeps |
| AsWritten.Reserve | unittests.cpp:396-400 | the literal reserve: fails on a non-empty map, otherwise resizes the bucket vector to exactly n |
| AsWritten.ReserveZeroNoBuckets | unittests.cpp:396-400 | as written, reserve(0) on an empty map leaves zero buckets, while ConcurrentMap.Reserve keeps one |

## Left out

- Hardware transactional memory and lock elision (`BOOST_BEGIN/END_TRANSACT_LOCK`, the TSX capability probe): tied to particular processors and only about concurrency.
- The quiescence barrier (`entered`/`exited`, the `using_` guard), the resize-lock drain loops, per-slot spin-waits, the unused `_rehash_lock`, and the atomics: sequentially each acquisition succeeds immediately, so they do not change any result.
- Memory management: `malloc`/`realloc`/`free`/`memset`, allocator rebinding, padding. Growth is modelled on `seq`. Whether `malloc(0)` or `realloc(p, 0)` returns null depends on the allocator, so the literal capacity-0 insert (spin or `bad_alloc`) is shown only as "no slot is ever claimed".
- Buckets.Insert: does not model allocation or construction failure, nor the `catch` path that unlocks the claimed slot and rethrows. No operation has an allocation-failure outcome.
- Hash values are unbounded `nat`, so `size_t` wrap-around is not modelled. Nothing in the map does arithmetic on hashes except `% n`.
- Iterator dereference (`operator*`) and post-increment are not modelled as separate members. `Find` and `Insert` state what the returned position holds, and post-increment is `Next`.
- The copy and move constructors and assignments are declared but never defined in the source, so there is nothing to model.
- `ConcurrentMap.Erase` and `ConcurrentMap.Insert` take the map invariant `Valid` as a precondition. Every constructor establishes it and every operation keeps it.
- The benchmarks, the threaded spinlock tests and the test runner: they involve threads, timing and floating point. The two codegen probes under test/constexprs are unrelated to the map.

## Findings

| source | as written | input that shows it | evidently intended | confidence | as-written member | corrected member |
|---|---|---|---|---|---|---|
| unittests.cpp:212-216 | `newsize=count; newsize+=newsize/2; resize(newsize);` runs on every pass, claimed or not | a full bucket with capacity 1: the capacity stays 1 and the do-while never ends; a bucket with capacity 0 (any bucket before its first insert) never gains a slot either, so the loop spins, or throws `bad_alloc` at :262 on allocators where `realloc(p, 0)` returns null | grow only when no empty slot was found, by at least one slot | high (not executed) | AsWritten.InsertRoundStuck | Buckets.Insert |
| unittests.cpp:177-187 | after a failed re-validation the slot is unlocked but `i` is not advanced | slots `[empty with hash 0, (0, 7) with hash 0]`, looking up hash 0: the scan revisits slot 0 forever | advance past the slot and keep scanning | high (not executed) | AsWritten.FindStepZeroHash | Buckets.Find |
| unittests.cpp:339, 363 | `itb->find(i, h)` restarts at the slot `i` that just matched by hash but not by key | keys 1 and 2 both with hash 5 in one bucket, looking up key 2: slot 0 is returned forever | resume at the slot after `i` | high (not executed) | AsWritten.RestartStepCollision | ConcurrentMap.ScanKey |
| unittests.cpp:383-389 | `erase` removes the value but never decrements `_size` | insert one key, then erase it: `size()` is 1 and `empty()` is false with no entries | decrement `_size` when a value was detached | high (not executed) | AsWritten.EraseLosesCount | ConcurrentMap.Erase |
| unittests.cpp:396-400 | `_buckets.resize(n)` with no lower bound | `reserve(0)` on an empty map, then `insert`: `hash % 0` | keep at least one bucket, as the sized constructor does | medium (not executed) | AsWritten.ReserveZeroNoBuckets | ConcurrentMap.Reserve |

=== FILE: as_written.dfy ===
/**
 * Behaviour of unittests.cpp taken literally where it departs from what the
 * map evidently intends, each with a lemma exhibiting the input that shows
 * the difference. The rest of the model uses the corrected definitions in
 * Buckets and ConcurrentMap.
 */
module AsWritten {
  import opened Items
  import Buckets
  import opened MapIterator
  import ConcurrentMap

  /**
   * One pass of the do-while in bucket_type::insert as written: claim the
   * first empty slot from the hint, then resize to `count + count/2` whether
   * or not the claim succeeded.
   */
  function InsertRound<K, V>(items: Buckets.Bucket<K, V>, hint: nat): (Option<nat>, Buckets.Bucket<K, V>)
  {
    (Buckets.FirstEmpty(items, hint), Buckets.Resize(items, |items| + |items| / 2))
  }

  /**
   * A full bucket of capacity 0 or 1 (in particular every bucket before its
   * first insert) is a fixed point of the round: nothing is claimed and the
   * capacity does not change. At capacity 1 the do-while never ends; at
   * capacity 0 it spins, or throws `bad_alloc` where `realloc(p, 0)` returns
   * null. Either way no slot is ever claimed. The corrected Buckets.Grow
   * always adds a slot.
   */
  lemma InsertRoundStuck<K, V>(items: Buckets.Bucket<K, V>, hint: nat)
    requires |items| <= 1 && Buckets.FirstEmpty(items, hint).None?
    ensures InsertRound(items, hint) == (None, items)
    ensures Buckets.Grow(|items|) > |items| + |items| / 2
  {
    assert items[..|items|] == items;
  }

  /** A round that did claim a slot still reallocates the bucket. */
  lemma InsertRoundGrowsAfterClaim<K, V>(items: Buckets.Bucket<K, V>, hint: nat)
    requires |items| >= 2 && Buckets.FirstEmpty(items, hint).Some?
    ensures InsertRound(items, hint).0.Some? && |InsertRound(items, hint).1| > |items|
  {
  }

  /** One trip round the outer `for(;;)` of bucket_type::find as written. */
  datatype Step = Done(hit: Option<nat>) | Again(at: nat)

  /**
   * The inner loop: skip slots whose cached hash differs. It stops at the
   * first slot from `i` whose hash is `h`, or at the end.
   */
  function SkipMismatch<K, V>(items: Buckets.Bucket<K, V>, i: nat, h: nat): (j: nat)
    decreases |items| - i
    ensures i <= j && (i <= |items| ==> j <= |items|)
    ensures j < |items| ==> items[j].hash == h
    ensures forall k :: i <= k < j && k < |items| ==> items[k].hash != h
  {
    if i >= |items| || items[i].hash == h then i else SkipMismatch(items, i + 1, h)
  }

  /**
   * As written: after a hash match, lock and re-validate; on failure unlock
   * and go round again without advancing `i`.
   */
  function FindStep<K, V>(items: Buckets.Bucket<K, V>, i: nat, h: nat): Step
  {
    var j := SkipMismatch(items, i, h);
    if j >= |items| then Done(None)
    else if items[j].entry.Some? then Done(Some(j))
    else Again(j)
  }

  /** An empty slot whose stale or zero-filled hash equals `h` makes the scan revisit it forever. */
  lemma FindStepSpins<K, V>(items: Buckets.Bucket<K, V>, i: nat, h: nat)
    requires i < |items| && items[i].hash == h && items[i].entry.None?
    ensures FindStep(items, i, h) == Again(i)
  {
  }

  /**
   * Concretely: a zero-filled slot ahead of the entry for a key hashing to 0.
   * As written the scan never leaves slot 0; Buckets.Find returns slot 1.
   */
  lemma FindStepZeroHash()
    ensures var items := [Zero(), Set(Entry(0, 7), 0)];
            FindStep(items, 0, 0) == Again(0) && Buckets.Find(items, 0, 0, false).hit == Some(1)
  {
  }

  /**
   * The map's find/insert loop as written: after a hash match whose key
   * differs, bucket find is called again starting at that same slot.
   */
  function RestartStep<K, V>(items: Buckets.Bucket<K, V>, previous: nat, h: nat): Option<nat>
  {
    Buckets.Find(items, previous, h, false).hit
  }

  /** Restarting at a hash match returns that same slot, so a colliding key is never passed. */
  lemma RestartStepRepeats<K, V>(items: Buckets.Bucket<K, V>, i: nat, h: nat)
    requires i < |items| && Buckets.Matches(items[i], h)
    ensures RestartStep(items, i, h) == Some(i)
  {
  }

  /**
   * Concretely: keys 1 and 2 sharing hash 5 in one bucket. Looking for key 2,
   * the loop as written is handed slot 0 again; ConcurrentMap.ScanKey finds slot 1.
   */
  lemma RestartStepCollision()
    ensures var items := [Set(Entry(1, 10), 5), Set(Entry(2, 20), 5)];
            && Buckets.Find(items, 0, 5, false).hit == Some(0)
            && RestartStep(items, 0, 5) == Some(0)
            && ConcurrentMap.ScanKey(items, 0, 5, 2, 0, false).hit == Some(1)
  {
  }

  /** map erase as written: removes the slot's value but leaves `_size` alone. */
  function Erase<K, V>(m: ConcurrentMap.Map<K, V>, it: Iter): (ConcurrentMap.Map<K, V>, Iter)
    requires it.bucket < |m.buckets| && it.offset < |m.buckets[it.bucket]|
  {
    var items' := Buckets.Remove(m.buckets[it.bucket], it.offset).0;
    var m' := m.(buckets := m.buckets[it.bucket := items']);
    (m', Next(m'.buckets, it))
  }

  /**
   * Erasing an occupied slot as written leaves `size()` one above the number
   * of entries, so the invariant is lost; ConcurrentMap.Erase keeps it.
   */
  lemma EraseLosesCount<K, V>(m: ConcurrentMap.Map<K, V>, it: Iter)
    requires ConcurrentMap.Valid(m)
    requires it.bucket < |m.buckets| && it.offset < |m.buckets[it.bucket]|
    requires m.buckets[it.bucket][it.offset].entry.Some?
    ensures Erase(m, it).0.size == m.size
    ensures ConcurrentMap.Total(Erase(m, it).0.buckets) + 1 == m.size
    ensures !ConcurrentMap.Valid(Erase(m, it).0)
    ensures ConcurrentMap.Valid(ConcurrentMap.Erase(m, it).0)
  {
    var items := m.buckets[it.bucket];
    var items' := Buckets.Remove(items, it.offset).0;
    Buckets.OccupiedUpdate(items, it.offset, items'[it.offset]);
    assert items[it.offset := items'[it.offset]] == items';
    ConcurrentMap.TotalUpdate(m.buckets, it.bucket, items');
  }

  /** reserve as written: resizes the bucket vector to exactly `n`. */
  function Reserve<K, V>(m: ConcurrentMap.Map<K, V>, n: nat): (ConcurrentMap.Map<K, V>, ConcurrentMap.Outcome)
  {
    if m.size != 0 then (m, ConcurrentMap.Fail(ConcurrentMap.RehashUnsupported))
    else (m.(buckets := seq(n, b requires 0 <= b < n => if b < |m.buckets| then m.buckets[b] else [])), ConcurrentMap.Pass)
  }

  /**
   * `reserve(0)` on an empty map succeeds as written and leaves no bucket, so
   * the next insert computes `hash % 0`; ConcurrentMap.Reserve keeps one.
   */
  lemma ReserveZeroNoBuckets<K, V>(m: ConcurrentMap.Map<K, V>)
    requires m.size == 0
    ensures Reserve(m, 0).1.Pass? && |Reserve(m, 0).0.buckets| == 0
    ensures !ConcurrentMap.Valid(Reserve(m, 0).0)
    ensures |ConcurrentMap.Reserve(m, 0).0.buckets| == 1
  {
  }
}

=== FILE: buckets.dfy ===
/**
 * A bucket (`bucket_type`): a linear array of item slots whose length is the
 * bucket's `count`. An array that was never allocated (or was freed by
 * `clear`) is the empty sequence. The quiescence counters `entered`/`exited`
 * and the `resize_lock` only order concurrent users and are not represented.
 */
module Buckets {
  import opened Items

  type Bucket<K, V> = seq<Slot<K, V>>

  /** What the scan accepts after re-validating under the slot lock: hash equal and pointer non-null. */
  predicate Matches<K, V>(s: Slot<K, V>, h: nat)
  {
    s.hash == h && s.entry.Some?
  }

  /** A slot the hash filter passes over with a null pointer: the scan may record it as an insertion point. */
  predicate Vacant<K, V>(s: Slot<K, V>, h: nat)
  {
    s.hash != h && s.entry.None?
  }

  /** The result of `find`: the matching slot, if any, and the first empty slot recorded, if asked for. */
  datatype Scan = Scan(hit: Option<nat>, empty: Option<nat>)

  /**
   * bucket_type::find(start, hash, empty): scans forward from `start` for the
   * first slot whose cached hash is `h` and which is occupied; when `wantEmpty`
   * (a non-null `empty` pointer) it also records the first empty slot that the
   * hash filter passes over.
   *
   * Deviation: after a failed re-validation (hash matches, pointer null) the
   * source does not advance and re-examines the same slot forever; here the
   * scan moves on to the next slot (see AsWritten.FindStep).
   */
  function Find<K, V>(items: Bucket<K, V>, start: nat, h: nat, wantEmpty: bool): (r: Scan)
    decreases |items| - start
    ensures r.hit.Some? ==> start <= r.hit.value < |items| && Matches(items[r.hit.value], h)
    ensures forall j :: start <= j < |items| && (r.hit.None? || j < r.hit.value) ==> !Matches(items[j], h)
    ensures r.empty.Some? ==> wantEmpty && start <= r.empty.value < |items| && Vacant(items[r.empty.value], h)
    ensures r.empty.Some? ==> forall j :: start <= j < r.empty.value ==> !Vacant(items[j], h)
    ensures r.empty.Some? && r.hit.Some? ==> r.empty.value < r.hit.value
    ensures wantEmpty && r.empty.None? ==>
              forall j :: start <= j < |items| && (r.hit.None? || j < r.hit.value) ==> !Vacant(items[j], h)
  {
    if start >= |items| then Scan(None, None)
    else if Matches(items[start], h) then Scan(Some(start), None)
    else if wantEmpty && Vacant(items[start], h) then Scan(Find(items, start + 1, h, false).hit, Some(start))
    else Find(items, start + 1, h, wantEmpty)
  }

  /** Number of occupied slots. */
  function Occupied<K, V>(items: Bucket<K, V>): nat
  {
    if |items| == 0 then 0
    else (if items[0].entry.Some? then 1 else 0) + Occupied(items[1..])
  }

  /** The bucket owns entry `e`. */
  ghost predicate Has<K, V>(items: Bucket<K, V>, e: Entry<K, V>)
  {
    exists j :: 0 <= j < |items| && items[j].entry == Some(e)
  }

  /** Some occupied slot holds key `k`. */
  ghost predicate HasKey<K, V>(items: Bucket<K, V>, k: K)
  {
    exists j :: 0 <= j < |items| && items[j].entry.Some? && items[j].entry.value.key == k
  }

  /** Occupied slots hold pairwise distinct keys. */
  ghost predicate UniqueKeys<K, V>(items: Bucket<K, V>)
  {
    forall i, j ::
      0 <= i < |items| && 0 <= j < |items| && i != j && items[i].entry.Some? && items[j].entry.Some?
      ==> items[i].entry.value.key != items[j].entry.value.key
  }

  /** First empty slot at or after `from`: what the claim loop of `insert` looks for. */
  function FirstEmpty<K, V>(items: Bucket<K, V>, from: nat): (r: Option<nat>)
    decreases |items| - from
    ensures r.Some? ==> from <= r.value < |items| && items[r.value].entry.None?
    ensures forall j :: from <= j < |items| && (r.None? || j < r.value) ==> items[j].entry.Some?
  {
    if from >= |items| then None
    else if items[from].entry.None? then Some(from)
    else FirstEmpty(items, from + 1)
  }

  /** The claim loop of bucket_type::insert: walks from the hint to the end looking for a null pointer. */
  method ClaimEmpty<K, V>(items: Bucket<K, V>, hint: nat) returns (offset: Option<nat>)
    ensures offset == FirstEmpty(items, hint)
  {
    var i := hint;
    while i < |items|
      invariant hint <= i
      invariant FirstEmpty(items, i) == FirstEmpty(items, hint)
      decreases |items| - i
    {
      if items[i].entry.None? {
        return Some(i);
      }
      i := i + 1;
    }
    return None;
  }

  /**
   * Capacity after growing a full bucket: `count + count/2`, but at least one
   * more slot. Deviation: the source computes `newsize += newsize/2`, which
   * leaves an unallocated bucket at capacity 0 (see AsWritten.InsertRound).
   */
  function Grow(count: nat): (r: nat)
    ensures r > count
    ensures r >= count + count / 2
    ensures count >= 2 ==> r == count + count / 2
    ensures count < 2 ==> r == count + 1
  {
    count + (if count / 2 == 0 then 1 else count / 2)
  }

  /**
   * bucket_type::resize(newsize): the array now has `newsize` slots; those below
   * both capacities are unchanged and the added ones are zero-filled.
   */
  function Resize<K, V>(items: Bucket<K, V>, newsize: nat): (r: Bucket<K, V>)
    ensures |r| == newsize
    ensures forall j :: 0 <= j < |items| && j < newsize ==> r[j] == items[j]
    ensures forall j :: |items| <= j < newsize ==> r[j] == Zero()
  {
    if newsize <= |items| then items[..newsize]
    else items + seq(newsize - |items|, _ => Zero())
  }

  /**
   * bucket_type::insert: claims the first empty slot at or after `hint`,
   * growing the array only when there is none, and stores the entry there.
   * Deviation: the source resizes after every claim attempt, successful or
   * not; here the bucket grows only when the claim failed, then the claim is
   * retried once, which always succeeds on the first added slot.
   */
  method Insert<K, V>(items: Bucket<K, V>, e: Entry<K, V>, h: nat, hint: nat) returns (r: Bucket<K, V>, offset: nat)
    requires hint <= |items|
    ensures hint <= offset < |r|
    ensures r[offset] == Set(e, h)
    ensures offset < |items| ==> items[offset].entry.None?
    ensures FirstEmpty(items, hint).Some? ==> |r| == |items| && offset == FirstEmpty(items, hint).value
    ensures FirstEmpty(items, hint).None? ==> |r| == Grow(|items|) && offset == |items|
    ensures forall j :: 0 <= j < |items| && j != offset ==> r[j] == items[j]
    ensures forall j :: |items| <= j < |r| && j != offset ==> r[j] == Zero()
    ensures Occupied(r) == Occupied(items) + 1
    ensures forall x :: Has(r, x) <==> Has(items, x) || x == e
    ensures UniqueKeys(items) && !HasKey(items, e.key) ==> UniqueKeys(r)
  {
    var cur := items;
    var claimed := ClaimEmpty(cur, hint);
    if claimed.None? {
      cur := Resize(items, Grow(|items|));
      assert cur[|items|] == Zero();
      ResizeKeepsContents(items, Grow(|items|));
      claimed := ClaimEmpty(cur, hint);
    }
    offset := claimed.value;
    r := cur[offset := Set(e, h)];
    ClaimAddsEntry(cur, offset, e, h);
  }

  /**
   * bucket_type::remove(offset): detaches the slot's value (if any) and
   * returns it for destruction; an occupied slot becomes a zero slot (null,
   * hash 0), an empty one is left as it was, and every other slot is unchanged.
   */
  function Remove<K, V>(items: Bucket<K, V>, offset: nat): (r: (Bucket<K, V>, Option<Entry<K, V>>))
    requires offset < |items|
    ensures r.1 == items[offset].entry
    ensures |r.0| == |items| && r.0[offset].entry.None?
    ensures items[offset].entry.Some? ==> r.0[offset] == Zero()
    ensures items[offset].entry.None? ==> r.0 == items
    ensures forall j :: 0 <= j < |items| && j != offset ==> r.0[j] == items[j]
  {
    var d := Detach(items[offset]);
    (items[offset := d.1], d.0)
  }

  /** bucket_type::clear: every value destroyed, the array freed, count 0. */
  function Clear<K, V>(items: Bucket<K, V>): (r: Bucket<K, V>)
    ensures |r| == 0
    ensures Occupied(r) == 0
  {
    []
  }

  // ---------------------------------------------------------------------
  // Occupancy and contents lemmas
  // ---------------------------------------------------------------------

  lemma {:induction false} OccupiedAppend<K, V>(a: Bucket<K, V>, b: Bucket<K, V>)
    ensures Occupied(a + b) == Occupied(a) + Occupied(b)
    decreases |a|
  {
    if |a| == 0 {
      assert a + b == b;
    } else {
      assert (a + b)[1..] == a[1..] + b;
      OccupiedAppend(a[1..], b);
    }
  }

  /** Replacing one slot changes the count by the difference in that slot's occupancy. */
  lemma {:induction false} OccupiedUpdate<K, V>(items: Bucket<K, V>, i: nat, s: Slot<K, V>)
    requires i < |items|
    ensures Occupied(items[i := s]) + (if items[i].entry.Some? then 1 else 0)
         == Occupied(items) + (if s.entry.Some? then 1 else 0)
    decreases |items|
  {
    if i == 0 {
      assert items[i := s][1..] == items[1..];
    } else {
      assert items[i := s][1..] == items[1..][i - 1 := s];
      OccupiedUpdate(items[1..], i - 1, s);
    }
  }

  /** The count is zero exactly when every slot is empty. */
  lemma {:induction false} OccupiedZeroIffAllEmpty<K, V>(items: Bucket<K, V>)
    ensures Occupied(items) == 0 <==> forall j :: 0 <= j < |items| ==> items[j].entry.None?
    decreases |items|
  {
    if |items| > 0 {
      OccupiedZeroIffAllEmpty(items[1..]);
      assert forall j :: 1 <= j < |items| ==> items[j] == items[1..][j - 1];
    }
  }

  /** Growing a bucket keeps its occupancy and the entries it owns. */
  lemma ResizeKeepsContents<K, V>(items: Bucket<K, V>, newsize: nat)
    requires newsize >= |items|
    ensures Occupied(Resize(items, newsize)) == Occupied(items)
    ensures forall x :: Has(Resize(items, newsize), x) <==> Has(items, x)
    ensures forall k :: HasKey(Resize(items, newsize), k) <==> HasKey(items, k)
    ensures UniqueKeys(items) ==> UniqueKeys(Resize(items, newsize))
  {
    var zeros: Bucket<K, V> := seq(newsize - |items|, _ => Zero());
    assert Resize(items, newsize) == items + zeros;
    OccupiedAppend(items, zeros);
    OccupiedZeroIffAllEmpty(zeros);
  }

  /** Filling an empty slot adds exactly that entry. */
  lemma ClaimAddsEntry<K, V>(items: Bucket<K, V>, offset: nat, e: Entry<K, V>, h: nat)
    requires offset < |items| && items[offset].entry.None?
    ensures Occupied(items[offset := Set(e, h)]) == Occupied(items) + 1
    ensures forall x :: Has(items[offset := Set(e, h)], x) <==> Has(items, x) || x == e
    ensures UniqueKeys(items) && !HasKey(items, e.key) ==> UniqueKeys(items[offset := Set(e, h)])
  {
    var r := items[offset := Set(e, h)];
    OccupiedUpdate(items, offset, Set(e, h));
    forall x | Has(items, x) || x == e
      ensures Has(r, x)
    {
      if x == e {
        assert r[offset].entry == Some(x);
      } else {
        var j :| 0 <= j < |items| && items[j].entry == Some(x);
        assert r[j].entry == Some(x);
      }
    }
  }

  /** Removing a slot drops exactly the entry it held. */
  lemma RemoveDropsEntry<K, V>(items: Bucket<K, V>, offset: nat)
    requires offset < |items|
    requires UniqueKeys(items)
    ensures Occupied(Remove(items, offset).0) + (if items[offset].entry.Some? then 1 else 0) == Occupied(items)
    ensures forall x :: Has(Remove(items, offset).0, x) <==> Has(items, x) && items[offset].entry != Some(x)
    ensures forall k :: HasKey(Remove(items, offset).0, k) ==> HasKey(items, k)
    ensures UniqueKeys(Remove(items, offset).0)
  {
    var r := Remove(items, offset).0;
    OccupiedUpdate(items, offset, r[offset]);
    assert items[offset := r[offset]] == r;
    forall x | Has(items, x) && items[offset].entry != Some(x)
      ensures Has(r, x)
    {
      var j :| 0 <= j < |items| && items[j].entry == Some(x);
      assert r[j].entry == Some(x);
    }
    forall x | Has(r, x)
      ensures items[offset].entry != Some(x)
    {
      var j :| 0 <= j < |r| && r[j].entry == Some(x);
      assert j != offset && items[j].entry == Some(x);
    }
  }
}

=== FILE: concurrent_map.dfy ===
/**
 * The sequential semantics of `concurrent_unordered_map`: a fixed, non-empty
 * sequence of buckets, a key routed to bucket `hash % bucket count`, an
 * insert that never overwrites, and a size counter that tracks occupancy.
 */
module ConcurrentMap {
  import opened Items
  import Buckets
  import opened MapIterator

  /** Bucket count of a default-constructed map. */
  const DefaultBucketCount: nat := 13

  datatype Map<!K, V> = Map(buckets: seq<Buckets.Bucket<K, V>>, size: nat, hasher: K -> nat)

  /** The runtime_error `reserve` throws on a non-empty map. */
  datatype Error = RehashUnsupported

  datatype Outcome = Pass | Fail(error: Error)

  /** Occupied slots over all buckets. */
  function Total<K, V>(buckets: seq<Buckets.Bucket<K, V>>): nat
  {
    if |buckets| == 0 then 0 else Buckets.Occupied(buckets[0]) + Total(buckets[1..])
  }

  /** The occupied slot `s` of bucket `b` is where its key routes, with its key's hash cached. */
  ghost predicate Placed<K, V>(m: Map<K, V>, b: nat, s: Slot<K, V>)
    requires |m.buckets| > 0
  {
    s.entry.Some? ==> s.hash == m.hasher(s.entry.value.key) && s.hash % |m.buckets| == b
  }

  /**
   * The map invariant: at least one bucket, `size` equal to the number of
   * occupied slots, every entry in its routed bucket with its hash cached,
   * and keys distinct within each bucket.
   */
  ghost predicate Valid<K, V>(m: Map<K, V>)
  {
    && |m.buckets| > 0
    && m.size == Total(m.buckets)
    && (forall b :: 0 <= b < |m.buckets| ==> Buckets.UniqueKeys(m.buckets[b]))
    && (forall b, i :: 0 <= b < |m.buckets| && 0 <= i < |m.buckets[b]| ==> Placed(m, b, m.buckets[b][i]))
  }

  /** Some bucket holds key `k`. */
  ghost predicate Contains<K, V>(m: Map<K, V>, k: K)
  {
    exists b :: 0 <= b < |m.buckets| && Buckets.HasKey(m.buckets[b], k)
  }

  /** Some bucket holds the pair `(k, v)`. */
  ghost predicate Holds<K, V>(m: Map<K, V>, k: K, v: V)
  {
    exists b :: 0 <= b < |m.buckets| && Buckets.Has(m.buckets[b], Entry(k, v))
  }

  /** _get_bucket: the bucket a hash routes to. */
  function Route<K, V>(m: Map<K, V>, h: nat): (b: nat)
    requires |m.buckets| > 0
    ensures b < |m.buckets|
  {
    h % |m.buckets|
  }

  /** The default constructor: 13 unallocated buckets and size 0. */
  function New<K, V>(hasher: K -> nat): Map<K, V>
  {
    WithBucketCount(hasher, DefaultBucketCount)
  }

  /** The sized constructor: `n` unallocated buckets, or one when `n` is 0. */
  function WithBucketCount<K, V>(hasher: K -> nat, n: nat): Map<K, V>
  {
    Map(seq(if n > 0 then n else 1, _ => []), 0, hasher)
  }

  /**
   * The default map has 13 unallocated buckets, a sized map `n` (one when `n`
   * is 0); both start at size 0 with the given hasher, establish the
   * invariant and hold no key.
   */
  lemma ConstructorsValid<K, V>(hasher: K -> nat, n: nat, k: K)
    ensures |New<K, V>(hasher).buckets| == DefaultBucketCount
    ensures |WithBucketCount<K, V>(hasher, n).buckets| == (if n > 0 then n else 1)
    ensures forall b :: 0 <= b < |WithBucketCount<K, V>(hasher, n).buckets| ==> WithBucketCount<K, V>(hasher, n).buckets[b] == []
    ensures New<K, V>(hasher).size == 0 && New<K, V>(hasher).hasher == hasher
    ensures WithBucketCount<K, V>(hasher, n).size == 0 && WithBucketCount<K, V>(hasher, n).hasher == hasher
    ensures Valid(New<K, V>(hasher)) && !Contains(New<K, V>(hasher), k)
    ensures Valid(WithBucketCount<K, V>(hasher, n)) && !Contains(WithBucketCount<K, V>(hasher, n), k)
  {
    TotalOfEmptyBuckets(New<K, V>(hasher).buckets);
    TotalOfEmptyBuckets(WithBucketCount<K, V>(hasher, n).buckets);
  }

  /** size() */
  function Size<K, V>(m: Map<K, V>): nat
  {
    m.size
  }

  /** empty() */
  function IsEmpty<K, V>(m: Map<K, V>): bool
  {
    m.size == 0
  }

  /** The result of the key scan: the slot holding the key, and the insertion hint recorded on the way. */
  datatype KeyScan = KeyScan(hit: Option<nat>, emptyIdx: nat)

  /**
   * The `for(;;)` loop shared by map find and insert: bucket find by hash,
   * then compare the key of each hash match. While `record` is set and no
   * hint has been recorded yet (`emptyidx` still 0, which also stands for
   * slot 0), each bucket find is asked for the first empty slot.
   *
   * Deviation: after a hash match with a different key the source restarts
   * the bucket find at that same slot, which returns it again forever; here
   * the scan resumes at the next slot (see AsWritten.RestartStep).
   */
  function ScanKey<K(==), V>(items: Buckets.Bucket<K, V>, start: nat, h: nat, k: K, emptyIdx: nat, record: bool): (r: KeyScan)
    decreases |items| - start
    ensures r.hit.Some? ==>
              && start <= r.hit.value < |items|
              && Buckets.Matches(items[r.hit.value], h)
              && items[r.hit.value].entry.value.key == k
    ensures r.hit.None? ==>
              forall j :: start <= j < |items| && Buckets.Matches(items[j], h) ==> items[j].entry.value.key != k
    ensures r.emptyIdx == emptyIdx || (r.emptyIdx < |items| && items[r.emptyIdx].entry.None?)
  {
    var s := Buckets.Find(items, start, h, record && emptyIdx == 0);
    var e := if s.empty.Some? then s.empty.value else emptyIdx;
    match s.hit
    case None => KeyScan(None, e)
    case Some(i) =>
      if items[i].entry.value.key == k then KeyScan(Some(i), e)
      else ScanKey(items, i + 1, h, k, e, record)
  }

  /**
   * find(k): end() at once on an empty map; otherwise the position of the
   * slot of bucket `hash(k) % n` that holds `k`, or end().
   */
  function Find<K(==), V>(m: Map<K, V>, k: K): (it: Iter)
    requires |m.buckets| > 0
    ensures m.size == 0 ==> it == End(m.buckets)
    ensures it != End(m.buckets) ==>
              && it.bucket == Route(m, m.hasher(k))
              && it.offset < |m.buckets[it.bucket]|
              && m.buckets[it.bucket][it.offset].entry.Some?
              && m.buckets[it.bucket][it.offset].entry.value.key == k
  {
    if m.size == 0 then End(m.buckets)
    else
      var h := m.hasher(k);
      var b := Route(m, h);
      var s := ScanKey(m.buckets[b], 0, h, k, 0, false);
      if s.hit.Some? then Iter(b, s.hit.value) else End(m.buckets)
  }

  /**
   * insert((k, v)): when the routed bucket already holds `k`, returns its
   * position and false and changes nothing; otherwise stores the pair in an
   * empty slot of that bucket, returns that position and true, and the size
   * grows by one. The bucket grows, to `Grow(count)` zero-filled slots, only
   * when it has no empty slot; no other slot of any bucket changes.
   */
  method Insert<K(==), V>(m: Map<K, V>, k: K, v: V) returns (m': Map<K, V>, it: Iter, inserted: bool)
    requires Valid(m)
    ensures Valid(m')
    ensures inserted <==> !Contains(m, k)
    ensures m'.hasher == m.hasher && |m'.buckets| == |m.buckets|
    ensures it.bucket == Route(m, m.hasher(k)) && it.offset < |m'.buckets[it.bucket]|
    ensures m'.buckets[it.bucket][it.offset].entry.Some?
    ensures m'.buckets[it.bucket][it.offset].entry.value.key == k
    ensures !inserted ==> m' == m
    ensures inserted ==> m'.buckets[it.bucket][it.offset].entry == Some(Entry(k, v))
    ensures inserted ==> m'.size == m.size + 1
    ensures inserted && it.offset < |m.buckets[it.bucket]| ==> m.buckets[it.bucket][it.offset].entry.None?
    ensures inserted ==> forall c :: 0 <= c < |m.buckets| && c != it.bucket ==> m'.buckets[c] == m.buckets[c]
    ensures |m'.buckets[it.bucket]| >= |m.buckets[it.bucket]|
    ensures || |m'.buckets[it.bucket]| == |m.buckets[it.bucket]|
            || |m'.buckets[it.bucket]| == Buckets.Grow(|m.buckets[it.bucket]|)
    ensures |m'.buckets[it.bucket]| > |m.buckets[it.bucket]| ==>
              forall j :: 0 <= j < |m.buckets[it.bucket]| ==> m.buckets[it.bucket][j].entry.Some?
    ensures forall j :: |m.buckets[it.bucket]| <= j < |m'.buckets[it.bucket]| && j != it.offset ==>
              m'.buckets[it.bucket][j] == Zero()
    ensures inserted ==> forall j :: 0 <= j < |m.buckets[it.bucket]| && j != it.offset ==>
              m'.buckets[it.bucket][j] == m.buckets[it.bucket][j]
    ensures forall k', v' :: Holds(m', k', v') <==> Holds(m, k', v') || (inserted && k' == k && v' == v)
  {
    var h := m.hasher(k);
    var b := Route(m, h);
    var items := m.buckets[b];
    var s := ScanKey(items, 0, h, k, 0, true);
    ContainsIffRouted(m, k);
    if s.hit.Some? {
      m', it, inserted := m, Iter(b, s.hit.value), false;
      return;
    }
    assert !Buckets.HasKey(items, k) by {
      forall j | 0 <= j < |items| && items[j].entry.Some?
        ensures items[j].entry.value.key != k
      {
        assert Placed(m, b, items[j]);
      }
    }
    var items', offset := Buckets.Insert(items, Entry(k, v), h, s.emptyIdx);
    m' := m.(buckets := m.buckets[b := items'], size := m.size + 1);
    it := Iter(b, offset);
    inserted := true;
    TotalUpdate(m.buckets, b, items');
    InsertKeepsPlacement(m, b, items', offset, Entry(k, v));
    HoldsAfterUpdate(m, b, items');
  }

  /**
   * erase(it): empties the iterator's slot as `detach` does (destroying its
   * value and resetting its hash when it held one, leaving an empty slot as
   * it was), leaves every other slot where it was, decrements the size when
   * a value was removed, and returns the next position. Deviation: the source
   * never decrements `_size` (see AsWritten.Erase).
   */
  function Erase<K, V>(m: Map<K, V>, it: Iter): (r: (Map<K, V>, Iter))
    requires Valid(m)
    requires it.bucket < |m.buckets| && it.offset < |m.buckets[it.bucket]|
    ensures Valid(r.0)
    ensures r.0.hasher == m.hasher && |r.0.buckets| == |m.buckets|
    ensures forall b :: 0 <= b < |m.buckets| ==> |r.0.buckets[b]| == |m.buckets[b]|
    ensures r.0.buckets[it.bucket][it.offset].entry.None?
    ensures m.buckets[it.bucket][it.offset].entry.Some? ==> r.0.buckets[it.bucket][it.offset] == Zero()
    ensures r.0.buckets[it.bucket][it.offset] == Detach(m.buckets[it.bucket][it.offset]).1
    ensures forall c, j :: 0 <= c < |m.buckets| && 0 <= j < |m.buckets[c]| && (c != it.bucket || j != it.offset) ==>
              r.0.buckets[c][j] == m.buckets[c][j]
    ensures r.0.size == m.size - (if m.buckets[it.bucket][it.offset].entry.Some? then 1 else 0)
    ensures r.1 == Next(m.buckets, it)
  {
    EraseKeepsValid(m, it);
    var items' := Buckets.Remove(m.buckets[it.bucket], it.offset).0;
    var m' := m.(buckets := m.buckets[it.bucket := items'],
                 size := m.size - (if m.buckets[it.bucket][it.offset].entry.Some? then 1 else 0));
    (m', Next(m'.buckets, it))
  }

  /** clear(): every bucket emptied and freed, size 0; the bucket count is kept. */
  function Clear<K, V>(m: Map<K, V>): (r: Map<K, V>)
    ensures r.size == 0 && r.hasher == m.hasher && |r.buckets| == |m.buckets|
    ensures forall b :: 0 <= b < |r.buckets| ==> |r.buckets[b]| == 0
    ensures |m.buckets| > 0 ==> Valid(r)
  {
    var buckets := seq(|m.buckets|, b requires 0 <= b < |m.buckets| => Buckets.Clear(m.buckets[b]));
    TotalOfEmptyBuckets(buckets);
    Map(buckets, 0, m.hasher)
  }

  /**
   * reserve(n): refused with RehashUnsupported, the map unchanged, unless the
   * map is empty; then the bucket vector is resized to `n` (at least one),
   * keeping the leading buckets and appending unallocated ones.
   * Deviation: the source resizes to exactly `n`, so `reserve(0)` leaves no
   * bucket to route to (see AsWritten.Reserve).
   */
  function Reserve<K, V>(m: Map<K, V>, n: nat): (r: (Map<K, V>, Outcome))
    ensures r.1.Fail? <==> m.size != 0
    ensures r.1.Fail? ==> r.1.error == RehashUnsupported && r.0 == m
    ensures r.1.Pass? ==> |r.0.buckets| == (if n > 0 then n else 1) && r.0.size == 0 && r.0.hasher == m.hasher
    ensures r.1.Pass? ==> forall b :: 0 <= b < |r.0.buckets| ==>
              r.0.buckets[b] == if b < |m.buckets| then m.buckets[b] else []
    ensures r.1.Pass? && Valid(m) ==> Valid(r.0)
  {
    if m.size != 0 then (m, Fail(RehashUnsupported))
    else
      var count := if n > 0 then n else 1;
      var buckets := seq(count, b requires 0 <= b < count => if b < |m.buckets| then m.buckets[b] else []);
      ReserveKeepsValid(m, buckets);
      (m.(buckets := buckets), Pass)
  }

  // ---------------------------------------------------------------------
  // Lemmas
  // ---------------------------------------------------------------------

  /** find(k) is end() exactly when the map does not hold `k`. */
  lemma FindComplete<K, V>(m: Map<K, V>, k: K)
    requires Valid(m)
    ensures Find(m, k) == End(m.buckets) <==> !Contains(m, k)
    ensures Find(m, k) != End(m.buckets) ==>
              Holds(m, k, m.buckets[Find(m, k).bucket][Find(m, k).offset].entry.value.value)
  {
    var it := Find(m, k);
    var h := m.hasher(k);
    var b := Route(m, h);
    var items := m.buckets[b];
    ContainsIffRouted(m, k);
    if it != End(m.buckets) {
      var e := items[it.offset].entry.value;
      assert items[it.offset].entry == Some(Entry(k, e.value));
      assert Buckets.Has(items, Entry(k, e.value));
    } else if m.size == 0 {
      NoEntriesWhenTotalZero(m);
    } else {
      forall j | 0 <= j < |items| && items[j].entry.Some?
        ensures items[j].entry.value.key != k
      {
        assert Placed(m, b, items[j]);
      }
    }
  }

  /** empty() holds exactly when no key is present. */
  lemma IsEmptyIffNoKeys<K, V>(m: Map<K, V>)
    requires Valid(m)
    ensures IsEmpty(m) <==> forall k :: !Contains(m, k)
  {
    if m.size == 0 {
      NoEntriesWhenTotalZero(m);
    } else {
      var b, i := SomeOccupiedSlot(m.buckets);
      assert Buckets.HasKey(m.buckets[b], m.buckets[b][i].entry.value.key);
      assert Contains(m, m.buckets[b][i].entry.value.key);
    }
  }

  /** After clear() the map is empty and find returns end() for every key. */
  lemma ClearEmpties<K, V>(m: Map<K, V>, k: K)
    requires |m.buckets| > 0
    ensures IsEmpty(Clear(m)) && Size(Clear(m)) == 0
    ensures !Contains(Clear(m), k)
    ensures Find(Clear(m), k) == End(Clear(m).buckets)
  {
    NoEntriesWhenTotalZero(Clear(m));
  }

  /** A failed reserve leaves count and contents alone; a successful one leaves the map empty. */
  lemma ReserveOutcome<K, V>(m: Map<K, V>, n: nat, k: K)
    requires Valid(m)
    ensures Reserve(m, n).1.Fail? ==> Reserve(m, n).0 == m && (Contains(m, k) <==> Contains(Reserve(m, n).0, k))
    ensures Reserve(m, n).1.Pass? ==> !Contains(m, k) && !Contains(Reserve(m, n).0, k)
  {
    if m.size == 0 {
      NoEntriesWhenTotalZero(m);
      NoEntriesWhenTotalZero(Reserve(m, n).0);
    }
  }

  /** Erasing removes exactly the pair the slot held. */
  lemma EraseContents<K, V>(m: Map<K, V>, it: Iter)
    requires Valid(m)
    requires it.bucket < |m.buckets| && it.offset < |m.buckets[it.bucket]|
    ensures forall k, v :: Holds(Erase(m, it).0, k, v) <==>
              Holds(m, k, v) && m.buckets[it.bucket][it.offset].entry != Some(Entry(k, v))
  {
    var b := it.bucket;
    var items' := Buckets.Remove(m.buckets[b], it.offset).0;
    Buckets.RemoveDropsEntry(m.buckets[b], it.offset);
    HoldsAfterUpdate(m, b, items');
    forall k, v | Holds(m, k, v) && m.buckets[b][it.offset].entry == Some(Entry(k, v))
      ensures !Holds(Erase(m, it).0, k, v)
    {
      forall c, j | 0 <= c < |m.buckets| && 0 <= j < |m.buckets[c]|
        ensures m.buckets[c][j].entry == Some(Entry(k, v)) ==> c == b
      {
        assert Placed(m, c, m.buckets[c][j]);
        assert Placed(m, b, m.buckets[b][it.offset]);
      }
    }
  }

  lemma {:induction false} TotalOfEmptyBuckets<K, V>(buckets: seq<Buckets.Bucket<K, V>>)
    requires forall b :: 0 <= b < |buckets| ==> buckets[b] == []
    ensures Total(buckets) == 0
    decreases |buckets|
  {
    if |buckets| > 0 {
      TotalOfEmptyBuckets(buckets[1..]);
    }
  }

  /** Replacing one bucket changes the total by the difference of the two counts. */
  lemma {:induction false} TotalUpdate<K, V>(buckets: seq<Buckets.Bucket<K, V>>, b: nat, items: Buckets.Bucket<K, V>)
    requires b < |buckets|
    ensures Total(buckets[b := items]) + Buckets.Occupied(buckets[b]) == Total(buckets) + Buckets.Occupied(items)
    decreases |buckets|
  {
    if b == 0 {
      assert buckets[b := items][1..] == buckets[1..];
    } else {
      assert buckets[b := items][1..] == buckets[1..][b - 1 := items];
      TotalUpdate(buckets[1..], b - 1, items);
    }
  }

  /** With a zero total every slot of every bucket is empty. */
  lemma {:induction false} TotalZeroAllEmpty<K, V>(buckets: seq<Buckets.Bucket<K, V>>)
    requires Total(buckets) == 0
    ensures forall b, i :: 0 <= b < |buckets| && 0 <= i < |buckets[b]| ==> buckets[b][i].entry.None?
    decreases |buckets|
  {
    if |buckets| > 0 {
      Buckets.OccupiedZeroIffAllEmpty(buckets[0]);
      TotalZeroAllEmpty(buckets[1..]);
      assert forall b :: 1 <= b < |buckets| ==> buckets[b] == buckets[1..][b - 1];
    }
  }

  /** A positive total has an occupied slot to show for it. */
  lemma {:induction false} SomeOccupiedSlot<K, V>(buckets: seq<Buckets.Bucket<K, V>>) returns (b: nat, i: nat)
    requires Total(buckets) > 0
    ensures b < |buckets| && i < |buckets[b]| && buckets[b][i].entry.Some?
    decreases |buckets|
  {
    if Buckets.Occupied(buckets[0]) > 0 {
      b := 0;
      Buckets.OccupiedZeroIffAllEmpty(buckets[0]);
      i :| 0 <= i < |buckets[0]| && buckets[0][i].entry.Some?;
    } else {
      var c;
      c, i := SomeOccupiedSlot(buckets[1..]);
      b := c + 1;
    }
  }

  lemma NoEntriesWhenTotalZero<K, V>(m: Map<K, V>)
    requires Total(m.buckets) == 0
    ensures forall k :: !Contains(m, k)
    ensures forall k, v :: !Holds(m, k, v)
  {
    TotalZeroAllEmpty(m.buckets);
  }

  /** Under the invariant a key can only be in its routed bucket. */
  lemma ContainsIffRouted<K, V>(m: Map<K, V>, k: K)
    requires Valid(m)
    ensures Contains(m, k) <==> Buckets.HasKey(m.buckets[Route(m, m.hasher(k))], k)
  {
    if Contains(m, k) {
      var b :| 0 <= b < |m.buckets| && Buckets.HasKey(m.buckets[b], k);
      var j :| 0 <= j < |m.buckets[b]| && m.buckets[b][j].entry.Some? && m.buckets[b][j].entry.value.key == k;
      assert Placed(m, b, m.buckets[b][j]);
    }
  }

  /** Replacing bucket `b` changes the held pairs only by what that bucket holds. */
  lemma HoldsAfterUpdate<K, V>(m: Map<K, V>, b: nat, items: Buckets.Bucket<K, V>)
    requires b < |m.buckets|
    ensures forall k, v :: Holds(m.(buckets := m.buckets[b := items]), k, v) <==>
              Buckets.Has(items, Entry(k, v)) ||
              exists c :: 0 <= c < |m.buckets| && c != b && Buckets.Has(m.buckets[c], Entry(k, v))
    ensures forall k, v :: Holds(m, k, v) <==>
              Buckets.Has(m.buckets[b], Entry(k, v)) ||
              exists c :: 0 <= c < |m.buckets| && c != b && Buckets.Has(m.buckets[c], Entry(k, v))
  {
    var m' := m.(buckets := m.buckets[b := items]);
    assert m'.buckets[b] == items;
    assert forall c :: 0 <= c < |m.buckets| && c != b ==> m'.buckets[c] == m.buckets[c];
  }

  /** Placement and key uniqueness survive filling one slot of the routed bucket with an absent key. */
  lemma InsertKeepsPlacement<K, V>(m: Map<K, V>, b: nat, items: Buckets.Bucket<K, V>, offset: nat, e: Entry<K, V>)
    requires Valid(m) && b < |m.buckets|
    requires m.hasher(e.key) % |m.buckets| == b
    requires |m.buckets[b]| <= |items|
    requires offset < |items| && items[offset] == Set(e, m.hasher(e.key))
    requires forall j :: 0 <= j < |m.buckets[b]| && j != offset ==> items[j] == m.buckets[b][j]
    requires forall j :: |m.buckets[b]| <= j < |items| && j != offset ==> items[j] == Zero()
    requires Buckets.UniqueKeys(items)
    ensures var m' := m.(buckets := m.buckets[b := items], size := Total(m.buckets[b := items]));
            Valid(m')
  {
    var m' := m.(buckets := m.buckets[b := items], size := Total(m.buckets[b := items]));
    forall c, i | 0 <= c < |m'.buckets| && 0 <= i < |m'.buckets[c]|
      ensures Placed(m', c, m'.buckets[c][i])
    {
      if c != b {
        assert Placed(m, c, m.buckets[c][i]);
      } else if i != offset && i < |m.buckets[b]| {
        assert Placed(m, b, m.buckets[b][i]);
      }
    }
  }

  lemma EraseKeepsValid<K, V>(m: Map<K, V>, it: Iter)
    requires Valid(m)
    requires it.bucket < |m.buckets| && it.offset < |m.buckets[it.bucket]|
    ensures var items' := Buckets.Remove(m.buckets[it.bucket], it.offset).0;
            var size' := m.size - (if m.buckets[it.bucket][it.offset].entry.Some? then 1 else 0);
            size' >= 0 && Valid(m.(buckets := m.buckets[it.bucket := items'], size := size'))
  {
    var b := it.bucket;
    var items' := Buckets.Remove(m.buckets[b], it.offset).0;
    Buckets.RemoveDropsEntry(m.buckets[b], it.offset);
    TotalUpdate(m.buckets, b, items');
    var m' := m.(buckets := m.buckets[b := items'], size := Total(m.buckets[b := items']));
    forall c, i | 0 <= c < |m'.buckets| && 0 <= i < |m'.buckets[c]|
      ensures Placed(m', c, m'.buckets[c][i])
    {
      assert Placed(m, c, m.buckets[c][i]);
    }
  }

  lemma ReserveKeepsValid<K, V>(m: Map<K, V>, buckets: seq<Buckets.Bucket<K, V>>)
    requires m.size == 0 && |buckets| > 0
    requires forall b :: 0 <= b < |buckets| ==> buckets[b] == if b < |m.buckets| then m.buckets[b] else []
    ensures Valid(m) ==> Valid(m.(buckets := buckets))
  {
    if Valid(m) {
      TotalZeroAllEmpty(m.buckets);
      forall b | 0 <= b < |buckets|
        ensures Buckets.Occupied(buckets[b]) == 0
      {
        Buckets.OccupiedZeroIffAllEmpty(buckets[b]);
      }
      TotalOfZeroCounts(buckets);
    }
  }

  lemma {:induction false} TotalOfZeroCounts<K, V>(buckets: seq<Buckets.Bucket<K, V>>)
    requires forall b :: 0 <= b < |buckets| ==> Buckets.Occupied(buckets[b]) == 0
    ensures Total(buckets) == 0
    decreases |buckets|
  {
    if |buckets| > 0 {
      TotalOfZeroCounts(buckets[1..]);
    }
  }
}

=== FILE: items.dfy ===
/**
 * One item slot of a bucket (`item_type`): the lock-tagged owning pointer to a
 * key/value pair, and the hash cached beside it so that a scan can skip a slot
 * without taking its lock. The lock bit itself is not represented: in the
 * sequential model every slot lock is released before an operation returns.
 */
module Items {

  datatype Option<+T> = None | Some(value: T)

  /** The heap-allocated `std::pair<const Key, T>` a slot owns. */
  datatype Entry<K, V> = Entry(key: K, value: V)

  /**
   * `entry` is None exactly when the pointer is null. `hash` is only
   * meaningful while the slot is occupied; a vacated slot may keep a stale one.
   */
  datatype Slot<K, V> = Slot(hash: nat, entry: Option<Entry<K, V>>)

  /** A zero-filled slot, as a grown bucket's new slots are: null pointer, hash 0. */
  function Zero<K, V>(): Slot<K, V>
  {
    Slot(0, None)
  }

  /** item_type::set: links a constructed value and its hash into a claimed slot. */
  function Set<K, V>(e: Entry<K, V>, h: nat): Slot<K, V>
  {
    Slot(h, Some(e))
  }

  /**
   * item_type::detach: hands the previous pointer to the caller and leaves the
   * slot empty; the hash is reset to 0 only when there was a value.
   */
  function Detach<K, V>(s: Slot<K, V>): (r: (Option<Entry<K, V>>, Slot<K, V>))
    ensures r.0 == s.entry
    ensures r.1.entry.None?
    ensures s.entry.Some? ==> r.1.hash == 0
    ensures s.entry.None? ==> r.1 == s
  {
    if s.entry.Some? then (s.entry, Slot(0, None)) else (None, s)
  }

  /** Detaching what `set` stored gives the value back and a zero slot. */
  lemma DetachAfterSet<K, V>(e: Entry<K, V>, h: nat)
    ensures Detach(Set(e, h)) == (Some(e), Zero())
  {
  }

  /** A second detach of the same slot yields null and changes nothing. */
  lemma DetachTwice<K, V>(s: Slot<K, V>)
    ensures Detach(Detach(s).1) == (None, Detach(s).1)
  {
  }
}

=== FILE: map_iterator.dfy ===
/**
 * The map's forward iterator: a bucket index (`_itb`) and an offset into that
 * bucket's slot array. The bucket index equal to the number of buckets is
 * `end()`. Iteration is bucket-major, slot-minor, and visits slot positions,
 * not entries: an empty slot, or offset 0 of an unallocated bucket, is a
 * position like any other.
 */
module MapIterator {
  import Buckets

  datatype Iter = Iter(bucket: nat, offset: nat)

  /** begin(): the first bucket, offset 0. */
  function Begin(): Iter
  {
    Iter(0, 0)
  }

  /** end(): one past the last bucket. */
  function End<K, V>(buckets: seq<Buckets.Bucket<K, V>>): Iter
  {
    Iter(|buckets|, 0)
  }

  /** Lexicographic (bucket, offset) order. */
  predicate Precedes(a: Iter, b: Iter)
  {
    a.bucket < b.bucket || (a.bucket == b.bucket && a.offset < b.offset)
  }

  /** Positions a bucket contributes to an iteration: its count, and at least offset 0. */
  function Span<K, V>(items: Buckets.Bucket<K, V>): nat
  {
    if |items| == 0 then 1 else |items|
  }

  /** An iterator that names a position of a bucket (it may still be an empty slot). */
  predicate AtPosition<K, V>(buckets: seq<Buckets.Bucket<K, V>>, it: Iter)
  {
    it.bucket < |buckets| && it.offset < Span(buckets[it.bucket])
  }

  /**
   * iterator::operator++: an end iterator stays put; otherwise the offset
   * advances, and once it reaches the bucket's count the iterator moves to
   * offset 0 of the next bucket.
   */
  function Next<K, V>(buckets: seq<Buckets.Bucket<K, V>>, it: Iter): (r: Iter)
    requires it.bucket <= |buckets|
    ensures r.bucket <= |buckets|
    ensures it.bucket == |buckets| ==> r == it
    ensures it.bucket < |buckets| ==> Precedes(it, r)
    ensures AtPosition(buckets, it) ==> r == End(buckets) || AtPosition(buckets, r)
    ensures AtPosition(buckets, it) ==>
              forall p :: AtPosition(buckets, p) ==> !(Precedes(it, p) && Precedes(p, r))
  {
    if it.bucket == |buckets| then it
    else if it.offset + 1 >= |buckets[it.bucket]| then Iter(it.bucket + 1, 0)
    else Iter(it.bucket, it.offset + 1)
  }

  /** `n` applications of operator++. */
  function Advance<K, V>(buckets: seq<Buckets.Bucket<K, V>>, it: Iter, n: nat): (r: Iter)
    requires it.bucket <= |buckets|
    ensures r.bucket <= |buckets|
    decreases n
  {
    if n == 0 then it else Advance(buckets, Next(buckets, it), n - 1)
  }

  /** The positions `Iter(b, 0)`, …, `Iter(b, n - 1)`. */
  function Row(b: nat, n: nat): (r: seq<Iter>)
    ensures |r| == n
    ensures forall i :: 0 <= i < n ==> r[i] == Iter(b, i)
  {
    seq(n, i requires 0 <= i < n => Iter(b, i))
  }

  /** All positions of buckets `b..`, bucket by bucket and, within a bucket, by offset. */
  function PositionsFrom<K, V>(buckets: seq<Buckets.Bucket<K, V>>, b: nat): seq<Iter>
    requires b <= |buckets|
    decreases |buckets| - b
  {
    if b == |buckets| then [] else Row(b, Span(buckets[b])) + PositionsFrom(buckets, b + 1)
  }

  /**
   * The positions of buckets `b..` are sorted in (bucket, offset) order and
   * are exactly the positions of those buckets.
   */
  lemma {:induction false} PositionsSortedAndComplete<K, V>(buckets: seq<Buckets.Bucket<K, V>>, b: nat)
    requires b <= |buckets|
    decreases |buckets| - b
    ensures forall i :: 0 <= i < |PositionsFrom(buckets, b)| ==>
              b <= PositionsFrom(buckets, b)[i].bucket && AtPosition(buckets, PositionsFrom(buckets, b)[i])
    ensures forall i, j :: 0 <= i < j < |PositionsFrom(buckets, b)| ==>
              Precedes(PositionsFrom(buckets, b)[i], PositionsFrom(buckets, b)[j])
    ensures forall it :: AtPosition(buckets, it) && b <= it.bucket ==> it in PositionsFrom(buckets, b)
  {
    if b < |buckets| {
      var row := Row(b, Span(buckets[b]));
      var rest := PositionsFrom(buckets, b + 1);
      PositionsSortedAndComplete(buckets, b + 1);
      var r := row + rest;
      assert PositionsFrom(buckets, b) == r;
      assert forall it :: AtPosition(buckets, it) && it.bucket == b ==> row[it.offset] == it;
      forall i | 0 <= i < |r|
        ensures b <= r[i].bucket && AtPosition(buckets, r[i])
      {
        if i >= |row| {
          assert r[i] == rest[i - |row|];
        }
      }
      forall i, j | 0 <= i < j < |r|
        ensures Precedes(r[i], r[j])
      {
        if j < |row| {
          assert r[i] == Iter(b, i) && r[j] == Iter(b, j);
        } else if i < |row| {
          assert r[i].bucket == b && r[j] == rest[j - |row|];
        } else {
          assert r[i] == rest[i - |row|] && r[j] == rest[j - |row|];
        }
      }
    }
  }

  lemma {:induction false} AdvanceAdd<K, V>(buckets: seq<Buckets.Bucket<K, V>>, it: Iter, a: nat, c: nat)
    requires it.bucket <= |buckets|
    ensures Advance(buckets, it, a + c) == Advance(buckets, Advance(buckets, it, a), c)
    decreases a
  {
    if a > 0 {
      AdvanceAdd(buckets, Next(buckets, it), a - 1, c);
    }
  }

  /** Within a bucket, `i` steps from offset 0 reach offset `i`. */
  lemma {:induction false} AdvanceWithinBucket<K, V>(buckets: seq<Buckets.Bucket<K, V>>, b: nat, i: nat)
    requires b < |buckets| && i < Span(buckets[b])
    ensures Advance(buckets, Iter(b, 0), i) == Iter(b, i)
    decreases i
  {
    if i > 0 {
      AdvanceWithinBucket(buckets, b, i - 1);
      AdvanceAdd(buckets, Iter(b, 0), i - 1, 1);
    }
  }

  /** A whole bucket's worth of steps reaches offset 0 of the next bucket. */
  lemma AdvancePastBucket<K, V>(buckets: seq<Buckets.Bucket<K, V>>, b: nat)
    requires b < |buckets|
    ensures Advance(buckets, Iter(b, 0), Span(buckets[b])) == Iter(b + 1, 0)
  {
    var s := Span(buckets[b]);
    AdvanceWithinBucket(buckets, b, s - 1);
    AdvanceAdd(buckets, Iter(b, 0), s - 1, 1);
  }

  lemma {:induction false} AdvanceFrom<K, V>(buckets: seq<Buckets.Bucket<K, V>>, b: nat, n: nat)
    requires b <= |buckets| && n <= |PositionsFrom(buckets, b)|
    ensures Advance(buckets, Iter(b, 0), n)
         == if n < |PositionsFrom(buckets, b)| then PositionsFrom(buckets, b)[n] else End(buckets)
    decreases |buckets| - b
  {
    if b < |buckets| {
      var s := Span(buckets[b]);
      var p := PositionsFrom(buckets, b);
      var rest := PositionsFrom(buckets, b + 1);
      assert p == Row(b, s) + rest;
      if n < s {
        AdvanceWithinBucket(buckets, b, n);
        assert p[n] == Row(b, s)[n];
      } else {
        AdvanceAdd(buckets, Iter(b, 0), s, n - s);
        AdvancePastBucket(buckets, b);
        AdvanceFrom(buckets, b + 1, n - s);
        assert n < |p| ==> p[n] == rest[n - s];
      }
    }
  }

  /**
   * Iterating from begin() visits exactly the sorted sequence of all
   * positions, one per operator++, and then reaches end().
   */
  lemma IterationOrder<K, V>(buckets: seq<Buckets.Bucket<K, V>>)
    ensures forall n :: 0 <= n < |PositionsFrom(buckets, 0)| ==>
              Advance(buckets, Begin(), n) == PositionsFrom(buckets, 0)[n]
    ensures Advance(buckets, Begin(), |PositionsFrom(buckets, 0)|) == End(buckets)
  {
    forall n | 0 <= n <= |PositionsFrom(buckets, 0)|
      ensures Advance(buckets, Begin(), n)
           == if n < |PositionsFrom(buckets, 0)| then PositionsFrom(buckets, 0)[n] else End(buckets)
    {
      AdvanceFrom(buckets, 0, n);
    }
  }
}

=== FILE: spinlock.dfy ===
/**
 * The `spinlock<bool>` primitive as a two-state machine, in its sequential
 * behaviour: `try_lock` succeeds exactly when the bit is clear and sets it,
 * `lock` is a `try_lock` that succeeds (single-threaded, spinning on a held
 * lock would never end), and `unlock` clears the bit.
 */
module Spinlocks {

  datatype Spinlock = Unlocked | Locked

  /** try_lock: whether the lock was acquired, and the lock's state afterwards. */
  function TryLock(l: Spinlock): (r: (bool, Spinlock))
    ensures r.0 <==> l == Unlocked
    ensures r.0 ==> r.1 == Locked
    ensures !r.0 ==> r.1 == l
  {
    if l.Unlocked? then (true, Locked) else (false, l)
  }

  /** lock: spins until try_lock succeeds; sequentially only an unlocked lock can be taken. */
  function Lock(l: Spinlock): (r: Spinlock)
    requires l == Unlocked
    ensures !TryLock(r).0
  {
    TryLock(l).1
  }

  /** unlock: clears the bit, so the next try_lock succeeds. */
  function Unlock(l: Spinlock): (r: Spinlock)
    ensures TryLock(r).0
  {
    Unlocked
  }

  /** Two try_locks in a row never both succeed. */
  lemma MutualExclusion(l: Spinlock)
    ensures !(TryLock(l).0 && TryLock(TryLock(l).1).0)
  {
  }

  /**
   * The sequential test case: a fresh lock is taken by try_lock, refused by a
   * second try_lock, released by unlock, taken again by a scoped guard, and
   * then refused by try_lock.
   */
  lemma SequentialTestCase()
    ensures var (first, l1) := TryLock(Unlocked);
            var (second, l2) := TryLock(l1);
            var l3 := Lock(Unlock(l2));
            first && !second && l2 == l1 && !TryLock(l3).0
  {
  }
}
